=== FILE: README.md ===
# Simple-Notepad: document session, word counter and close gate

A Dafny model of the core of a small Electron notepad. The model has three parts:

- **The word counter** (`wordsCount`). It applies four global regular-expression replacements to the editor's text and shows the length of what is left. The model keeps the four replacements as four functions over UTF-16 code units, because JavaScript's `length` counts code units. It proves that the result equals a direct rule: each maximal run of non-whitespace units in U+0000..U+00FF counts 1, every other non-whitespace unit counts 1, and whitespace counts 0. A literal '龘' (U+9F98, the sentinel the counter uses internally) also counts 0.
- **The renderer's document session.** Its state is `isSave`, `currentFile`, `isQuit`, the text, the window title and the number shown. Its transitions are the input handler, the `action` switch (`new`, `open`, `save`, `save-as`, `exit`), the save prompt `askSaveNeed`, `saveCurrentDoc`, `openFile` and the drop handler. Dialog answers are parameters. The file system is a map from path to text.
- **The main process's close gate.** A `safeExit` flag decides whether a window close is cancelled. Every close forwards `exit` to the renderer. Only the renderer's `exit` message sets the flag and quits. The `App` module composes both processes into one event-driven system. Menu clicks and close requests queue action strings for the renderer, and the renderer's synchronous `exit` message is handled in the same step.

Files: `code_units.dfy` (code units and character classes), `words_count.dfy`, `optional.dfy`, `session.dfy`, `session_properties.dfy`, `main_process.dfy`, `app.dfy`.

### Behaviour kept as written

- `new` and `open` go ahead after the user answers Cancel in the save prompt, and the Cancel only clears `isQuit`. `new` discards the unsaved text. `open` discards it when the open dialog returns a readable file, and keeps it when the dialog is cancelled or the read fails.
- Only the `exit` case resets `isQuit`, so after a Cancel during `new` or `open` the next `exit` (or window close) is swallowed. When the new or loaded document is saved, nothing is asked. When it stays unsaved, because the open dialog was cancelled or the read failed, the prompt is shown again; its answer still decides whether to save, and even a Yes does not quit.
- `save-as` clears `currentFile` before asking. Cancelling its dialog leaves the document without a path, while the title still names the old file.
- Dropping a file does not run the save prompt.
- A Yes in the prompt whose save dialog is then cancelled still lets the operation proceed.
- `currentFile` is assigned before `readText` runs. A path that cannot be read therefore changes `currentFile` and nothing else, and the rest of the handler does not run. A prompt that stopped the operation on Cancel, or a failed read that left the state untouched, would be the safer design; the model follows the code.
- "Latin" means `[\x00-\xff]` (Latin-1), not only ASCII.
- A loaded file goes through the textarea, whose `value` reports every CR LF and every lone CR as LF. The editor's text, the count and any later save therefore see LF line ends: saving a loaded file with CR in it, without an edit, rewrites its line ends. The `\r\n+` alternative of the counter never sees a CR from the editor; the counter is still modelled on any text.

## Model

| member | source | states |
|---|---|---|
| `CodeUnits.RunLength` | renderer.js:181-187 | a greedy `+` run is the longest prefix whose units all satisfy the class: all of it satisfies, and the unit after it does not |
| `WordsCounter.WordsCountMatchesRule` | renderer.js:176-189 | the four replacements followed by `length` count exactly by the rule: one per maximal non-whitespace Latin-1 run, one per other non-whitespace unit, none for whitespace or '龘' |
| `WordsCounter.MarkWhitespaceKeepsCount` | renderer.js:181 | replacing whitespace runs (with `\r\n+` tried first) by a sentinel keeps the count and leaves no whitespace |
| `WordsCounter.MaskLatin1KeepsCount` | renderer.js:183 | turning every U+0000..U+00FF unit into 'm' keeps the count and makes 'm' the only Latin-1 unit |
| `WordsCounter.CollapseKeepsCount` | renderer.js:185 | collapsing each run of 'm' into '*' keeps the count |
| `WordsCounter.CollapseSeparatesLatin` | renderer.js:185 | after collapsing, no two Latin word units are adjacent |
| `WordsCounter.EraseLeavesCount` | renderer.js:187-189 | erasing the sentinel runs leaves exactly one unit per counted word |
| `WordsCounter.WordsCountBounds` | renderer.js:181-189 | the count never exceeds the length in code units, and it is 0 exactly when the text is only whitespace and '龘' (including the empty text) |
| `WordsCounter.CountsTwoLatinWords` | renderer.js:181-189 | "hello world" counts 2 |
| `WordsCounter.CountsIdeographsOneEach` | renderer.js:181-189 | "hi你好" counts 3 |
| `WordsCounter.CountsLiteralSentinelZero` | renderer.js:187 | a literal '龘' counts 0 |
| `WordsCounter.CountsAcrossLineBreak` | renderer.js:181 | a CR LF LF break separates two words |
| `DocumentSession.EditorValue` | renderer.js:153 | what the textarea reports has no CR, and a text without CR is reported unchanged |
| `SessionProperties.EditorValueNormalizesNewlines` | renderer.js:153-209 | the value the textarea reports is the two-pass newline normalization: each CR LF pair becomes LF, then each remaining CR becomes LF |
| `DocumentSession.Recount` | renderer.js:176-195 | the number shown after `wordsCount()` is the rule's count of the text; nothing else changes |
| `DocumentSession.OnInput` | renderer.js:35-42 | an edit makes the document unsaved, recounts the text the textarea reports, and appends " *" to the title only if it was saved |
| `DocumentSession.InitDoc` | renderer.js:76-82 | a new document has no path, empty text, is saved, is titled "Notepad - Untitled" and shows the count of the empty text |
| `DocumentSession.SaveCurrentDoc` | renderer.js:112-135 | a save keeps a truthy current path, and otherwise takes the save dialog's path when that is truthy; with a path it writes the text there, marks the document saved and titles it "Notepad - " + path; without one nothing changes |
| `DocumentSession.AskSaveNeed` | renderer.js:86-108 | a saved document is left alone without asking; for an unsaved one, Yes (0) is exactly a save, and any other answer changes nothing but `isQuit`, which is cleared exactly on an answer other than 0 or 1; text and count are always kept |
| `DocumentSession.Load` | renderer.js:149-156 | the path becomes current; if it exists its text, with line ends as the textarea reports them, is loaded, saved, and titled, otherwise nothing else changes (the read throws) |
| `DocumentSession.OpenFile` | renderer.js:139-158 | a cancelled open dialog changes nothing |
| `DocumentSession.Drop` | renderer.js:205-213 | a drop loads the file (line ends as the textarea reports them) and recounts without asking, leaves files and `isQuit` alone, and on a failed read only changes the path |
| `DocumentSession.Dispatch` | renderer.js:47-71 | each of the five action strings selects its command, and only that string does |
| `DocumentSession.Action` | renderer.js:46-72 | only the `exit` case can send the quit message; unknown strings change nothing |
| `SessionProperties.InitialIsConsistent` | renderer.js:8-11 | the initial session shows the count of its text and agrees with any file system |
| `SessionProperties.InputKeepsInvariants` | renderer.js:35-42 | an edit keeps the count in step with a CR-free text and leaves the title of an unsaved document ending in " *" |
| `SessionProperties.ActionKeepsConsistent` | renderer.js:46-72 | every action keeps the count in step with the text and the marker on unsaved titles |
| `SessionProperties.DropKeepsConsistent` | renderer.js:205-213 | a drop keeps the count in step with the text and the marker on unsaved titles |
| `SessionProperties.ActionKeepsOnDisk` | renderer.js:46-72 | every action whose opened file exists keeps a saved document with a path equal to that file's contents, up to line ends, and titled with it |
| `SessionProperties.DropKeepsOnDisk` | renderer.js:205-212 | a drop of an existing file keeps a saved document in agreement with the file system |
| `SessionProperties.FailedDropLeavesStalePath` | renderer.js:207-208 | a drop of a missing path leaves a saved document pointing at a file that does not exist, with the old title |
| `SessionProperties.InputMarksTitleOnce` | renderer.js:35-41 | any number of edits after a save append " *" exactly once, leave the last text, and write nothing |
| `SessionProperties.DirtyInputsKeepTitle` | renderer.js:36-39 | edits to an unsaved document leave its title alone |
| `SessionProperties.SaveThenLoad` | renderer.js:128-155 | after a save that found a path, loading that path from any state with the same files yields the saved text, unchanged when it has no CR, as a saved document with the same title |
| `SessionProperties.EditorValueKeepsCount` | renderer.js:153-209 | normalizing line ends never changes the word count |
| `SessionProperties.LoadThenSaveRewritesLineEnds` | renderer.js:128-153 | loading a file with a CR in it and saving it again writes different contents: the LF-normalized text |
| `SessionProperties.SaveWritesInPlace` | renderer.js:57-59 | `save` with a truthy path writes the text there without a dialog, marks the document saved, titles it with the path, and does not quit |
| `SessionProperties.SaveAsWritesToChosenPath` | renderer.js:57-63 | `save-as`, or `save` without a path, with a truthy dialog result makes that path current, writes the text there, marks the document saved and titles it with the path |
| `SessionProperties.GuardYesSaves` | renderer.js:48-65 | a Yes in the prompt of `new`, `open` or `exit` on an unsaved document writes exactly what `saveCurrentDoc` writes: to the current path when truthy, otherwise to the save dialog's path |
| `SessionProperties.ExitOtherwiseOnlyResetsQuit` | renderer.js:64-70 | `exit` leaves the document and the files as the prompt left them (saved on Yes, untouched otherwise) and only sets `isQuit` again |
| `SessionProperties.OpenLoadsChosenFile` | renderer.js:52-56 | whatever the prompt answered, `open` with an existing chosen file makes it current, shows its text with normalized line ends, marks it saved, titles it and recounts |
| `SessionProperties.SaveAsCancelledLosesPath` | renderer.js:60-62 | a cancelled save-as drops the path and changes nothing else |
| `SessionProperties.NewEndsUntitled` | renderer.js:48-51 | `new` ends untitled, empty, saved and counting 0 whatever the prompt answered; a Cancel only clears `isQuit`; without a Yes nothing is written |
| `SessionProperties.OpenIgnoresCancel` | renderer.js:52-56 | `open` loads the chosen file even after a Cancel in the prompt, and the Cancel clears `isQuit` |
| `SessionProperties.CancelledOpenSwallowsNextExit` | renderer.js:52-70 | after a Cancel during `open` whose dialog is cancelled or whose read fails, the document stays unsaved and the next `exit` does not quit, whatever its prompt answers |
| `SessionProperties.OpenCancelledKeepsDocument` | renderer.js:52-56 | with a cancelled open dialog, `open` keeps the text and is the prompt's effect plus a recount |
| `SessionProperties.ExitSendsIffAllowed` | renderer.js:64-70 | `exit` sends the quit message exactly when `isQuit` is set and the prompt did not answer Cancel, and always leaves `isQuit` set |
| `SessionProperties.CancelledNewSwallowsNextExit` | renderer.js:48-70 | after a Cancel during `new`, the next `exit` does not quit and the one after it does |
| `SessionProperties.DropIsUnguardedOpen` | renderer.js:205-212 | on a saved document a drop equals `open` of the same path; it never writes files or touches `isQuit` |
| `SessionProperties.UnknownActionIgnored` | renderer.js:47-71 | an action string outside the five is ignored |
| `MainProcess.Ready` | main.js:79 | the main process starts with `safeExit` unset, no quit requested, and a window |
| `MainProcess.OnClose` | main.js:105-110 | a close is cancelled exactly when `safeExit` is unset, and `exit` is always forwarded |
| `MainProcess.OnExitMessage` | main.js:130-133 | the `exit` message sets `safeExit` and requests the quit |
| `MainProcess.OnActivate` | main.js:124-126 | `activate` creates a window exactly when none exists |
| `App.QuitOnlyOnExitMessage` | main.js:130-133 | in one step, the quit is requested only when the renderer sent `exit` while handling an `exit` action; `safeExit` and the quit request are never reset |
| `App.NoQuitUnlessRendererSentExit` | main.js:129-133 | over any run of events, a quit request implies some event at which the renderer sent `exit` |
| `App.StepKeepsShellInvariant` | main.js:105-110 | each event keeps `safeExit` equal to the quit request, and no window goes away before `safeExit` |
| `App.RunKeepsShellInvariant` | main.js:104-114 | the same holds after any run of events, and `safeExit` once set stays set |
| `App.StartSatisfiesShellInvariant` | main.js:79 | start-up satisfies the invariant with `safeExit` unset |
| `App.CloseGate` | main.js:105-110 | a close of the window keeps it exactly when `safeExit` is unset, always queues `exit` for the renderer, and leaves the document alone |
| `App.MenuActionsAreHandled` | main.js:12-44 | each File menu item sends the string the renderer's switch maps to the matching command, and no two items send the same string |
| `App.ActivateOnlyWithoutWindow` | main.js:124-126 | `activate` changes nothing while a window exists; otherwise it opens one with a fresh page over the same files |
| `App.CancelKeepsWindowOpen` | main.js:105-109 | closing an unsaved document and answering Cancel keeps the window and the application, and the text |
| `App.TypeThenSave` | renderer.js:112-133 | typing "abc" and saving to a chosen path writes the file, titles the window with the path, and shows 1 |
| `App.CleanCloseQuits` | main.js:105-133 | closing the window of a saved document asks nothing and quits, after which a close goes through |
| `App.CancelledNewSwallowsClose` | renderer.js:48-69 | after a Cancel during `new`, the next close keeps the window and the application although the document is saved |

## Left out

- Electron's dialog, menu and window APIs are not modelled. The prompt's button index, the save dialog's result and the open dialog's first path are parameters. Which button Escape selects is part of that parameter.
- The open dialog returns an array of paths. With single selection, the model takes its first element, and `None` stands for a cancelled dialog.
- A drop event with no file (where `files[0]` is undefined and the handler throws before changing anything) is left out. A drop always carries a path.
- The file system is a map. Writes always succeed, and write errors are not modelled because the code does not handle them. A read fails only when the path is missing. The UTF-8 encoding done by `writeFileSync` and `readFileSync`, which replaces lone surrogates, is not modelled.
- The `try`/`catch` and logging around the counter are left out: no step of the pipeline throws.
- The DOM is reduced to plain fields: the title, the text and the number shown. The textarea's line-end normalization is kept (`EditorValue`); its other behaviour is not modelled. The initial title comes from the page, which is not part of this model, so it is a parameter. The initial empty text and the count 0 come from the same page and are fixed in `Initial` as an empty editor and a zero count, on the assumption that the page starts that way. The context menu and the Edit menu roles are not modelled.
- The IPC transport is reduced to an in-order queue of action strings, and the blocking of `sendSync` to handling `exit` in the same step. The Help menu's `shell.openExternal` and the developer tools are left out, and so are the preload script and the `BrowserWindow` options.
- The `closed` event is merged into a close that is not cancelled. The closes and `window-all-closed` that `app.quit()` itself causes are not modelled: the quit request is a flag. The macOS-specific behaviour is left out.
- Window geometry and theme persistence are not part of this model: they do not appear in these files.
- DocumentSession.OnInput: appends " *" to the title as it was set. The `document.title` getter strips and collapses ASCII whitespace, so for a title naming a path with a run of spaces or a trailing space the program's title after an edit differs; that collapsing is not modelled.
- SessionProperties.ActionKeepsOnDisk: assumes the file `open` chooses exists. A failed read breaks the agreement, as `FailedDropLeavesStalePath` shows.

=== FILE: app.dfy ===
/** The two processes together, driven by user events: the main process
    forwards menu clicks and close requests to the renderer as action strings,
    which the renderer handles one at a time; the renderer's synchronous
    `exit` message is handled by the main process within the same step. */
module App {
  import opened Optional
  import opened CodeUnits
  import opened DocumentSession
  import opened MainProcess

  datatype System = System(
    shell: Shell,
    doc: State,             // the renderer's session and the file system
    inbox: seq<string>,     // actions sent to the renderer, not yet handled
    pageTitle: string)      // the title a newly loaded page starts with

  datatype Event =
    | Click(item: MenuItem)    // a File menu item
    | CloseWindow              // the window's close button, or any other close request
    | Deliver(d: Dialogs)      // the renderer handles the oldest pending action
    | Type(text: Text)         // the user edits the text
    | DropFile(path: Path)     // a file is dropped on the editor
    | Activate                 // the application is activated

  function Start(pageTitle: string, files: Files): System {
    System(Ready(), State(Initial(pageTitle), files), [], pageTitle)
  }

  /** The next system, and whether the renderer sent `exit` in this step. */
  datatype Transition = Transition(next: System, sentExit: bool)

  /** One event. Without a window there is no renderer to edit or handle
      actions and no window for the menu to send to, so only `Activate` has
      an effect; a new window loads a fresh page. */
  function Step(sys: System, ev: Event): Transition
  {
    if !sys.shell.hasWindow && !ev.Activate? then Transition(sys, false)
    else
      match ev
      case Click(item) =>
        Transition(sys.(inbox := sys.inbox + [MenuAction(item)]), false)
      case CloseWindow =>
        var reply := OnClose(sys.shell);
        Transition(sys.(shell := sys.shell.(hasWindow := reply.cancelled),
                        inbox := sys.inbox + [reply.forwarded]), false)
      case Deliver(d) =>
        if sys.inbox == [] then Transition(sys, false)
        else
          var r := Action(sys.doc, sys.inbox[0], d);
          var shell := if r.sentExit then OnExitMessage(sys.shell) else sys.shell;
          Transition(sys.(shell := shell, doc := r.state, inbox := sys.inbox[1..]), r.sentExit)
      case Type(text) =>
        Transition(sys.(doc := OnInput(sys.doc, text)), false)
      case DropFile(p) =>
        Transition(sys.(doc := Drop(sys.doc, p)), false)
      case Activate =>
        var a := OnActivate(sys.shell);
        if a.created then
          Transition(System(a.shell, State(Initial(sys.pageTitle), sys.doc.files), [], sys.pageTitle), false)
        else
          Transition(sys, false)
  }

  /** The system after a sequence of events. */
  function Run(sys: System, evs: seq<Event>): System
    decreases |evs|
  {
    if evs == [] then sys else Step(Run(sys, evs[..|evs| - 1]), evs[|evs| - 1]).next
  }

  /** The renderer sent `exit` while handling the `i`-th event. */
  ghost predicate SentExitAt(sys: System, evs: seq<Event>, i: nat)
    requires i < |evs|
  {
    Step(Run(sys, evs[..i]), evs[i]).sentExit
  }

  /** The main process asks to quit in a step only when the renderer sent
      `exit` in that step, which it does only while handling an `exit`
      action. */
  lemma QuitOnlyOnExitMessage(sys: System, ev: Event)
    ensures Step(sys, ev).sentExit ==>
      ev.Deliver? && sys.inbox != [] && sys.inbox[0] == "exit" && Step(sys, ev).next.shell.quitRequested
    ensures !sys.shell.quitRequested && Step(sys, ev).next.shell.quitRequested ==> Step(sys, ev).sentExit
    ensures sys.shell.safeExit ==> Step(sys, ev).next.shell.safeExit
    ensures sys.shell.quitRequested ==> Step(sys, ev).next.shell.quitRequested
  {
  }

  /** No quit unless the renderer sent `exit`: whenever the main process has
      asked to quit after a run that started without, some event of the run
      had the renderer send `exit`. */
  lemma {:induction false} NoQuitUnlessRendererSentExit(sys: System, evs: seq<Event>)
    requires !sys.shell.quitRequested
    ensures Run(sys, evs).shell.quitRequested ==> exists i :: 0 <= i < |evs| && SentExitAt(sys, evs, i)
    decreases |evs|
  {
    if evs != [] && Run(sys, evs).shell.quitRequested {
      var n := |evs| - 1;
      var pre := Run(sys, evs[..n]);
      if pre.shell.quitRequested {
        NoQuitUnlessRendererSentExit(sys, evs[..n]);
        var i :| 0 <= i < n && SentExitAt(sys, evs[..n], i);
        assert evs[..n][..i] == evs[..i];
        assert SentExitAt(sys, evs, i);
      } else {
        QuitOnlyOnExitMessage(pre, evs[n]);
        assert SentExitAt(sys, evs, n);
      }
    }
  }

  /** `safeExit` and the quit request are set together and never reset, and
      the window goes away only once the close is safe. */
  ghost predicate ShellInvariant(sh: Shell) {
    && sh.safeExit == sh.quitRequested
    && (!sh.hasWindow ==> sh.safeExit)
  }

  lemma StepKeepsShellInvariant(sys: System, ev: Event)
    requires ShellInvariant(sys.shell)
    ensures ShellInvariant(Step(sys, ev).next.shell)
    ensures sys.shell.safeExit ==> Step(sys, ev).next.shell.safeExit
  {
  }

  /** From start-up on, every reachable system keeps the invariant: in
      particular the window cannot be closed before the renderer said it may
      quit. */
  lemma {:induction false} RunKeepsShellInvariant(sys: System, evs: seq<Event>)
    requires ShellInvariant(sys.shell)
    ensures ShellInvariant(Run(sys, evs).shell)
    ensures sys.shell.safeExit ==> Run(sys, evs).shell.safeExit
    decreases |evs|
  {
    if evs != [] {
      var n := |evs| - 1;
      RunKeepsShellInvariant(sys, evs[..n]);
      StepKeepsShellInvariant(Run(sys, evs[..n]), evs[n]);
    }
  }

  lemma StartSatisfiesShellInvariant(pageTitle: string, files: Files)
    ensures ShellInvariant(Start(pageTitle, files).shell)
    ensures !Start(pageTitle, files).shell.safeExit
  {
  }

  /** A close request with a window is cancelled exactly when `safeExit` is
      unset, and either way forwards the `exit` action to the renderer. */
  lemma CloseGate(sys: System)
    requires sys.shell.hasWindow
    ensures Step(sys, CloseWindow).next.shell.hasWindow <==> !sys.shell.safeExit
    ensures Step(sys, CloseWindow).next.inbox == sys.inbox + ["exit"]
    ensures Step(sys, CloseWindow).next.doc == sys.doc
    ensures !Step(sys, CloseWindow).sentExit
  {
  }

  /** Each File menu item sends a string the renderer's switch handles, the
      one for the matching command, and no two items send the same string. */
  lemma MenuActionsAreHandled(item: MenuItem, other: MenuItem)
    ensures Dispatch(MenuAction(item)) == Some(match item
      case NewItem => New
      case OpenItem => Open
      case SaveItem => Save
      case SaveAsItem => SaveAs
      case ExitItem => Exit)
    ensures MenuAction(item) == MenuAction(other) ==> item == other
  {
  }

  /** `activate` creates a window, with a fresh page, only when there is none. */
  lemma ActivateOnlyWithoutWindow(sys: System)
    ensures sys.shell.hasWindow ==> Step(sys, Activate).next == sys
    ensures !sys.shell.hasWindow ==>
      && Step(sys, Activate).next.shell.hasWindow
      && Step(sys, Activate).next.doc.session == Initial(sys.pageTitle)
      && Step(sys, Activate).next.doc.files == sys.doc.files
  {
  }

  /** A Cancel in the prompt raised by closing the window keeps the window
      open and the application running. */
  lemma CancelKeepsWindowOpen(sys: System, d: Dialogs)
    requires sys.shell.hasWindow && !sys.shell.safeExit && !sys.shell.quitRequested
    requires sys.inbox == [] && !sys.doc.session.isSave
    requires d.confirm != 0 && d.confirm != 1
    ensures Run(sys, [CloseWindow, Deliver(d)]).shell == sys.shell
    ensures Run(sys, [CloseWindow, Deliver(d)]).doc.session.text == sys.doc.session.text
  {
    assert [CloseWindow, Deliver(d)][..1] == [CloseWindow];
    assert [CloseWindow][..0] == [];
  }

  lemma RunAppend(sys: System, evs: seq<Event>, ev: Event)
    ensures Run(sys, evs + [ev]) == Step(Run(sys, evs), ev).next
  {
  }

  /** Type "abc" into a new document and save it to a chosen path: the file
      holds the text, the title names it, the count is 1, and the document is
      saved with quitting still allowed. */
  lemma TypeThenSave(pageTitle: string, files: Files, abc: Text, p: Path, d: Dialogs)
    requires abc == [0x61, 0x62, 0x63]
    requires p != "" && d.savePath == Some(p)
    ensures
      var r := Run(Start(pageTitle, files), [Type(abc), Click(SaveItem), Deliver(d)]);
      && r.doc.files == files[p := abc]
      && r.doc.session.title == TitlePrefix + p
      && r.doc.session.count == 1
      && r.doc.session.isSave && r.doc.session.isQuit
      && r.inbox == [] && r.shell == Start(pageTitle, files).shell
  {
    var s0 := Start(pageTitle, files);
    var s1 := Step(s0, Type(abc)).next;
    WordsCounter.LatinRun(abc, 3, false);
    assert abc[3..] == [];
    assert s1.doc.session.count == 1;
    var s2 := Step(s1, Click(SaveItem)).next;
    var s3 := Step(s2, Deliver(d)).next;
    assert s2.inbox == ["save"];
    assert s3.doc == SaveCurrentDoc(s2.doc, Some(p));
    RunAppend(s0, [], Type(abc));
    assert [] + [Type(abc)] == [Type(abc)];
    RunAppend(s0, [Type(abc)], Click(SaveItem));
    assert [Type(abc)] + [Click(SaveItem)] == [Type(abc), Click(SaveItem)];
    RunAppend(s0, [Type(abc), Click(SaveItem)], Deliver(d));
    assert [Type(abc), Click(SaveItem)] + [Deliver(d)] == [Type(abc), Click(SaveItem), Deliver(d)];
  }

  /** Closing the window of a saved document asks nothing and quits, after
      which a close request is no longer cancelled. */
  lemma CleanCloseQuits(sys: System, d: Dialogs)
    requires sys.shell.hasWindow && !sys.shell.safeExit && sys.inbox == []
    requires sys.doc.session.isSave && sys.doc.session.isQuit
    ensures Run(sys, [CloseWindow, Deliver(d)]).shell.quitRequested
    ensures Run(sys, [CloseWindow, Deliver(d)]).doc == sys.doc
    ensures !Run(sys, [CloseWindow, Deliver(d), CloseWindow]).shell.hasWindow
  {
    var s1 := Step(sys, CloseWindow).next;
    assert s1.inbox == ["exit"];
    var s2 := Step(s1, Deliver(d)).next;
    assert Action(sys.doc, "exit", d).sentExit;
    assert s2.shell.safeExit;
    RunAppend(sys, [], CloseWindow);
    assert [] + [CloseWindow] == [CloseWindow];
    RunAppend(sys, [CloseWindow], Deliver(d));
    assert [CloseWindow] + [Deliver(d)] == [CloseWindow, Deliver(d)];
    assert Run(sys, [CloseWindow, Deliver(d)]) == s2;
    RunAppend(sys, [CloseWindow, Deliver(d)], CloseWindow);
    assert [CloseWindow, Deliver(d)] + [CloseWindow] == [CloseWindow, Deliver(d), CloseWindow];
  }

  /** After a Cancel in the prompt of `new`, the next close of the window is
      swallowed although the new document is saved and nothing is asked: the
      window stays and the application keeps running. */
  lemma CancelledNewSwallowsClose(sys: System, d1: Dialogs, d2: Dialogs)
    requires sys.shell.hasWindow && !sys.shell.safeExit && !sys.shell.quitRequested
    requires sys.inbox == [] && !sys.doc.session.isSave
    requires d1.confirm != 0 && d1.confirm != 1
    ensures
      var r := Run(sys, [Click(NewItem), Deliver(d1), CloseWindow, Deliver(d2)]);
      && r.shell == sys.shell
      && r.doc.session.isSave && r.doc.session.isQuit
      && r.inbox == []
  {
    var s1 := Step(sys, Click(NewItem)).next;
    assert s1.inbox == ["new"];
    var s2 := Step(s1, Deliver(d1)).next;
    assert s2.doc.session.isSave && !s2.doc.session.isQuit;
    var s3 := Step(s2, CloseWindow).next;
    assert s3.inbox == ["exit"];
    var s4 := Step(s3, Deliver(d2)).next;
    assert !Action(s3.doc, "exit", d2).sentExit;
    RunAppend(sys, [], Click(NewItem));
    assert [] + [Click(NewItem)] == [Click(NewItem)];
    RunAppend(sys, [Click(NewItem)], Deliver(d1));
    assert [Click(NewItem)] + [Deliver(d1)] == [Click(NewItem), Deliver(d1)];
    RunAppend(sys, [Click(NewItem), Deliver(d1)], CloseWindow);
    assert [Click(NewItem), Deliver(d1)] + [CloseWindow] == [Click(NewItem), Deliver(d1), CloseWindow];
    RunAppend(sys, [Click(NewItem), Deliver(d1), CloseWindow], Deliver(d2));
    assert [Click(NewItem), Deliver(d1), CloseWindow] + [Deliver(d2)]
        == [Click(NewItem), Deliver(d1), CloseWindow, Deliver(d2)];
    assert Run(sys, [Click(NewItem), Deliver(d1), CloseWindow, Deliver(d2)]) == s4;
  }
}

=== FILE: code_units.dfy ===
/** UTF-16 code units and the character classes that the word counter's
    regular expressions test. A JavaScript string is a sequence of UTF-16 code
    units, and its `length` counts code units, not code points. */
module CodeUnits {

  newtype CodeUnit = x: int | 0 <= x < 0x1_0000

  /** The contents of the editor, or of a file read as text. */
  type Text = seq<CodeUnit>

  const LineFeed: CodeUnit := 0x0A
  const CarriageReturn: CodeUnit := 0x0D
  const Asterisk: CodeUnit := 0x2A
  const LetterM: CodeUnit := 0x6D
  /** U+3000 IDEOGRAPHIC SPACE, the full-width space. */
  const IdeographicSpace: CodeUnit := 0x3000
  /** U+9F98 '龘', the sentinel the counter writes in place of whitespace. */
  const Sentinel: CodeUnit := 0x9F98

  /** `\s` in an ECMAScript regular expression without the `u` flag: the
      WhiteSpace code points (section 12.2 of ECMA-262, which includes every
      Zs space separator) and the LineTerminator code points (section 12.3).
      All of them lie in the Basic Multilingual Plane, so each is one unit. */
  predicate IsWhitespace(c: CodeUnit) {
    || c == 0x09 || c == 0x0B || c == 0x0C || c == 0x20 || c == 0xA0 || c == 0xFEFF
    || c == 0x1680 || (0x2000 <= c <= 0x200A) || c == 0x202F || c == 0x205F
    || c == IdeographicSpace
    || c == LineFeed || c == CarriageReturn || c == 0x2028 || c == 0x2029
  }

  /** `[\x00-\xff]`: a unit in U+0000..U+00FF. */
  predicate IsLatin1(c: CodeUnit) {
    c <= 0xFF
  }

  predicate NoCarriageReturn(s: Text) {
    forall i :: 0 <= i < |s| ==> s[i] != CarriageReturn
  }

  predicate IsLineFeed(c: CodeUnit) {
    c == LineFeed
  }

  predicate IsLetterM(c: CodeUnit) {
    c == LetterM
  }

  predicate IsSentinel(c: CodeUnit) {
    c == Sentinel
  }

  /** Length of the longest prefix of `s` whose units all satisfy `p`: what a
      greedy `x+` (or `x*`) consumes at the front of `s`. */
  function RunLength(s: Text, p: CodeUnit -> bool): (n: nat)
    ensures n <= |s|
    ensures forall i :: 0 <= i < n ==> p(s[i])
    ensures n < |s| ==> !p(s[n])
    decreases |s|
  {
    if s == [] || !p(s[0]) then 0 else 1 + RunLength(s[1..], p)
  }
}

=== FILE: main_process.dfy ===
/** The main process (main.js): the File menu, the `safeExit` flag that gates
    closing the window, the `exit` message that sets it and quits, and window
    re-creation on `activate`. */
module MainProcess {

  /** The items of the File menu that send an action to the renderer. */
  datatype MenuItem = NewItem | OpenItem | SaveItem | SaveAsItem | ExitItem

  /** The action string each File menu item sends to the renderer. */
  function MenuAction(item: MenuItem): string
  {
    match item
    case NewItem => "new"
    case OpenItem => "open"
    case SaveItem => "save"
    case SaveAsItem => "save-as"
    case ExitItem => "exit"
  }

  datatype Shell = Shell(
    safeExit: bool,       // set once the renderer has said it may quit
    quitRequested: bool,  // `app.quit()` has been called
    hasWindow: bool)      // `mainWindow` refers to a live window

  /** The main process once `ready` has created the window. */
  function Ready(): (sh: Shell)
    ensures !sh.safeExit && !sh.quitRequested && sh.hasWindow
  {
    Shell(false, false, true)
  }

  /** What the window's `close` handler does: whether it cancels the close
      (`preventDefault`) and the action it forwards to the renderer. */
  datatype CloseReply = CloseReply(cancelled: bool, forwarded: string)

  function OnClose(sh: Shell): (r: CloseReply)
    ensures r.cancelled <==> !sh.safeExit
    ensures r.forwarded == "exit"
  {
    CloseReply(!sh.safeExit, "exit")
  }

  /** The `exit` message from the renderer: allow the close, and quit. */
  function OnExitMessage(sh: Shell): (r: Shell)
    ensures r.safeExit && r.quitRequested
    ensures r.hasWindow == sh.hasWindow
  {
    sh.(safeExit := true, quitRequested := true)
  }

  /** `activate`: create a window only when there is none; `created` says
      whether one was created. */
  datatype Activation = Activation(shell: Shell, created: bool)

  function OnActivate(sh: Shell): (r: Activation)
    ensures r.created <==> !sh.hasWindow
    ensures r.shell.hasWindow
    ensures r.shell.safeExit == sh.safeExit && r.shell.quitRequested == sh.quitRequested
  {
    if sh.hasWindow then Activation(sh, false) else Activation(sh.(hasWindow := true), true)
  }
}

=== FILE: optional.dfy ===
/** A value JavaScript may leave `null` or `undefined`. */
module Optional {

  datatype Option<+T> = None | Some(value: T)
}

=== FILE: session.dfy ===
/** The renderer process's document session (renderer.js): the module-level
    variables `isSave`, `currentFile` and `isQuit`, the editor's text, the
    window title and the word count shown in `txtNum`, and the handlers that
    change them. Dialog answers are parameters; the file system is a map from
    path to text. */
module DocumentSession {
  import opened Optional
  import opened CodeUnits
  import WordsCounter

  type Path = string

  /** What `readText` reads and `saveText` writes. */
  type Files = map<Path, Text>

  const TitlePrefix: string := "Notepad - "
  const UntitledTitle: string := "Notepad - Untitled"
  /** What an edit appends to the title of a saved document. */
  const DirtyMarker: string := " *"

  datatype Session = Session(
    isSave: bool,               // no edit since the last save, load or new document
    currentFile: Option<Path>,  // `null` until a file is saved or opened
    isQuit: bool,               // whether `exit` may tell the main process to quit
    text: Text,                 // `txtEditor.value`
    title: string,              // `document.title`
    count: nat)                 // the number shown in `txtNum`

  /** A session together with the file system it reads and writes. */
  datatype State = State(session: Session, files: Files)

  /** The answers to the dialogs one action can raise; each of them is raised
      at most once per action. `confirm` is the button index the save prompt
      returns (0 Yes, 1 No, anything else Cancel); `savePath` is what the save
      dialog returns; `openPath` is the first path the open dialog returns,
      `None` when it is cancelled. */
  datatype Dialogs = Dialogs(confirm: int, savePath: Option<Path>, openPath: Option<Path>)

  /** JavaScript truthiness of a path: `null`, `undefined` and "" are false. */
  predicate Truthy(p: Option<Path>) {
    p.Some? && p.value != ""
  }

  predicate EndsWithMarker(title: string) {
    |title| >= |DirtyMarker| && title[|title| - |DirtyMarker|..] == DirtyMarker
  }

  /** What reading `txtEditor.value` gives back: the textarea's API value, in
      which every CR LF pair and every lone CR has become a single LF (the
      textarea element of the HTML Standard). A file loaded into the editor is
      therefore read back, counted and saved with LF line ends. */
  function EditorValue(s: Text): (r: Text)
    ensures NoCarriageReturn(r)
    ensures NoCarriageReturn(s) ==> r == s
    ensures |r| <= |s|
    decreases |s|
  {
    if s == [] then []
    else if s[0] == CarriageReturn then
      if |s| > 1 && s[1] == LineFeed then [LineFeed] + EditorValue(s[2..])
      else [LineFeed] + EditorValue(s[1..])
    else [s[0]] + EditorValue(s[1..])
  }

  /** The first pass of newline normalization: each CR LF pair, scanning
      from the front, becomes one LF. */
  function ReplaceCrLf(s: Text): Text
    decreases |s|
  {
    if s == [] then []
    else if |s| > 1 && s[0] == CarriageReturn && s[1] == LineFeed then [LineFeed] + ReplaceCrLf(s[2..])
    else [s[0]] + ReplaceCrLf(s[1..])
  }

  /** The second pass: every remaining CR becomes LF. */
  function ReplaceCr(s: Text): Text
    decreases |s|
  {
    if s == [] then []
    else [if s[0] == CarriageReturn then LineFeed else s[0]] + ReplaceCr(s[1..])
  }

  /** The session a freshly loaded page starts in; its title comes from the
      page itself. */
  function Initial(pageTitle: string): Session {
    Session(true, None, true, [], pageTitle, 0)
  }

  /** `wordsCount()`: recompute the number shown from the editor's text. */
  function Recount(s: Session): (r: Session)
    ensures r.count == WordsCounter.CountRule(s.text)
    ensures r.(count := s.count) == s
  {
    WordsCounter.WordsCountMatchesRule(s.text);
    s.(count := WordsCounter.WordsCount(s.text))
  }

  /** `txtEditor.oninput`: the user's edit left `newText` in the textarea,
      which the counter reads back as `EditorValue(newText)`. */
  function OnInput(st: State, newText: Text): (r: State)
    ensures r.files == st.files
    ensures r.session.text == EditorValue(newText) && !r.session.isSave
    ensures r.session.count == WordsCounter.CountRule(EditorValue(newText))
    ensures r.session.currentFile == st.session.currentFile
    ensures r.session.isQuit == st.session.isQuit
    ensures st.session.isSave ==> r.session.title == st.session.title + DirtyMarker
    ensures !st.session.isSave ==> r.session.title == st.session.title
  {
    var s := st.session;
    var title := if s.isSave then s.title + DirtyMarker else s.title;
    State(Recount(s.(text := EditorValue(newText), title := title, isSave := false)), st.files)
  }

  /** `initDoc()`: an empty, untitled, saved document. */
  function InitDoc(s: Session): (r: Session)
    ensures r.currentFile == None && r.text == [] && r.isSave
    ensures r.title == UntitledTitle
    ensures r.count == WordsCounter.CountRule(r.text)
    ensures r.isQuit == s.isQuit
  {
    s.(currentFile := None, text := [], title := UntitledTitle, isSave := true, count := 0)
  }

  /** `saveCurrentDoc()`: without a truthy path, ask for one; with one, write
      the text there and mark the document saved. */
  function SaveCurrentDoc(st: State, savePath: Option<Path>): (r: State)
    ensures r.session.text == st.session.text && r.session.count == st.session.count
    ensures r.session.isQuit == st.session.isQuit
    ensures Truthy(st.session.currentFile) ==> r.session.currentFile == st.session.currentFile
    ensures !Truthy(st.session.currentFile) && Truthy(savePath) ==> r.session.currentFile == savePath
    ensures Truthy(r.session.currentFile) <==> Truthy(st.session.currentFile) || Truthy(savePath)
    ensures !Truthy(r.session.currentFile) ==> r == st
    ensures Truthy(r.session.currentFile) ==>
      var p := r.session.currentFile.value;
      && r.session.isSave
      && r.session.title == TitlePrefix + p
      && r.files == st.files[p := st.session.text]
  {
    var s := st.session;
    var file := if !Truthy(s.currentFile) && Truthy(savePath) then savePath else s.currentFile;
    if Truthy(file) then
      State(s.(currentFile := file, isSave := true, title := TitlePrefix + file.value),
            st.files[file.value := s.text])
    else
      st
  }

  /** `askSaveNeed()`: when the document has unsaved edits, ask whether to
      save it; Yes saves, No does nothing, and Cancel
      forbids the next quit. */
  function AskSaveNeed(st: State, d: Dialogs): (r: State)
    ensures r.session.text == st.session.text && r.session.count == st.session.count
    ensures r.session.isQuit == (st.session.isQuit && (st.session.isSave || d.confirm == 0 || d.confirm == 1))
    ensures st.session.isSave ==> r == st
    ensures !st.session.isSave && d.confirm == 0 ==> r == SaveCurrentDoc(st, d.savePath)
    ensures !st.session.isSave && d.confirm != 0 ==> r.session == st.session.(isQuit := r.session.isQuit) && r.files == st.files
    ensures r.files == st.files || (Truthy(r.session.currentFile) && r.files == st.files[r.session.currentFile.value := st.session.text])
  {
    if st.session.isSave then st
    else if d.confirm == 0 then SaveCurrentDoc(st, d.savePath)
    else if d.confirm == 1 then st
    else st.(session := st.session.(isQuit := false))
  }

  /** The result of a handler that may stop at an exception. */
  datatype Outcome = Outcome(state: State, threw: bool)

  /** Make `p` the current file and load its contents, as `openFile` does for
      a chosen path and the drop handler for a dropped one. `currentFile` is
      assigned before `readText` runs, so a path that cannot be read leaves
      it changed and nothing else. The editor shows the file with its line
      ends normalized. */
  function Load(st: State, p: Path): (o: Outcome)
    ensures o.state.files == st.files
    ensures o.threw <==> p !in st.files
    ensures o.state.session.currentFile == Some(p)
    ensures o.state.session.isQuit == st.session.isQuit
    ensures o.state.session.count == st.session.count
    ensures o.threw ==> o.state.session == st.session.(currentFile := Some(p))
    ensures !o.threw ==>
      && o.state.session.text == EditorValue(st.files[p])
      && o.state.session.isSave
      && o.state.session.title == TitlePrefix + p
  {
    var s := st.session.(currentFile := Some(p));
    if p in st.files then
      Outcome(State(s.(text := EditorValue(st.files[p]), title := TitlePrefix + p, isSave := true), st.files), false)
    else
      Outcome(State(s, st.files), true)
  }

  /** `openFile()`: load the path the open dialog returns, if any. */
  function OpenFile(st: State, openPath: Option<Path>): (o: Outcome)
    ensures openPath.None? ==> o.state == st && !o.threw
  {
    match openPath
    case None => Outcome(st, false)
    case Some(p) => Load(st, p)
  }

  /** `dragContent.ondrop`: load the first dropped file, without asking
      whether to save the current document. */
  function Drop(st: State, p: Path): (r: State)
    ensures r.files == st.files
    ensures r.session.currentFile == Some(p)
    ensures r.session.isQuit == st.session.isQuit
    ensures p in st.files ==>
      && r.session.text == EditorValue(st.files[p])
      && r.session.isSave
      && r.session.title == TitlePrefix + p
      && r.session.count == WordsCounter.CountRule(EditorValue(st.files[p]))
    ensures p !in st.files ==> r.session == st.session.(currentFile := Some(p))
  {
    var o := Load(st, p);
    if o.threw then o.state else o.state.(session := Recount(o.state.session))
  }

  /** The actions the `action` message handler switches on. */
  datatype Command = New | Open | Save | SaveAs | Exit

  /** The `switch(arg)` of the `action` handler; any other string matches no
      case. */
  function Dispatch(arg: string): (c: Option<Command>)
    ensures c == Some(New) <==> arg == "new"
    ensures c == Some(Open) <==> arg == "open"
    ensures c == Some(Save) <==> arg == "save"
    ensures c == Some(SaveAs) <==> arg == "save-as"
    ensures c == Some(Exit) <==> arg == "exit"
  {
    if arg == "new" then Some(New)
    else if arg == "open" then Some(Open)
    else if arg == "save" then Some(Save)
    else if arg == "save-as" then Some(SaveAs)
    else if arg == "exit" then Some(Exit)
    else None
  }

  /** The new state, and whether the handler sent the synchronous `exit`
      message to the main process. */
  datatype Reaction = Reaction(state: State, sentExit: bool)

  /** The `action` message handler. */
  function Action(st: State, arg: string, d: Dialogs): (r: Reaction)
    ensures r.sentExit ==> Dispatch(arg) == Some(Exit)
    ensures Dispatch(arg).None? ==> r == Reaction(st, false)
  {
    match Dispatch(arg)
    case None => Reaction(st, false)
    case Some(New) =>
      var g := AskSaveNeed(st, d);
      Reaction(g.(session := InitDoc(g.session)), false)
    case Some(Open) =>
      var g := AskSaveNeed(st, d);
      var o := OpenFile(g, d.openPath);
      Reaction(if o.threw then o.state else o.state.(session := Recount(o.state.session)), false)
    case Some(Save) =>
      Reaction(SaveCurrentDoc(st, d.savePath), false)
    case Some(SaveAs) =>
      Reaction(SaveCurrentDoc(st.(session := st.session.(currentFile := None)), d.savePath), false)
    case Some(Exit) =>
      var g := AskSaveNeed(st, d);
      Reaction(g.(session := g.session.(isQuit := true)), g.session.isQuit)
  }
}

=== FILE: session_properties.dfy ===
/** Properties of the document session that relate several handlers or hold
    across every handler. */
module SessionProperties {
  import opened Optional
  import opened CodeUnits
  import WordsCounter
  import opened DocumentSession

  /** The number shown is the word count of the text, the text is a value
      the textarea can report (no CR), and the title of a document with
      unsaved edits carries the marker. */
  predicate Consistent(s: Session) {
    && s.count == WordsCounter.WordsCount(s.text)
    && NoCarriageReturn(s.text)
    && (!s.isSave ==> EndsWithMarker(s.title))
  }

  /** A saved document that has a path agrees with the file system: the file
      holds the editor's text, up to the line ends the editor normalizes, and
      the title names the path. */
  predicate OnDisk(st: State) {
    st.session.isSave && Truthy(st.session.currentFile) ==>
      var p := st.session.currentFile.value;
      && p in st.files
      && EditorValue(st.files[p]) == st.session.text
      && st.session.title == TitlePrefix + p
  }

  /** Every path a handler will read exists: the dialog of `open` returns an
      existing file. */
  predicate ReadsSucceed(st: State, arg: string, d: Dialogs) {
    Dispatch(arg) == Some(Open) && d.openPath.Some? ==> d.openPath.value in st.files
  }

  lemma InitialIsConsistent(pageTitle: string, files: Files)
    ensures Consistent(Initial(pageTitle))
    ensures OnDisk(State(Initial(pageTitle), files))
  {
  }

  lemma InputKeepsInvariants(st: State, newText: Text)
    requires Consistent(st.session)
    ensures Consistent(OnInput(st, newText).session)
    ensures OnDisk(OnInput(st, newText))
  {
  }

  lemma ActionKeepsConsistent(st: State, arg: string, d: Dialogs)
    requires Consistent(st.session)
    ensures Consistent(Action(st, arg, d).state.session)
  {
  }

  lemma DropKeepsConsistent(st: State, p: Path)
    requires Consistent(st.session)
    ensures Consistent(Drop(st, p).session)
  {
  }

  /** Every action keeps a saved document in agreement with the file system,
      as long as the file it opens exists. */
  lemma ActionKeepsOnDisk(st: State, arg: string, d: Dialogs)
    requires Consistent(st.session) && OnDisk(st)
    requires ReadsSucceed(st, arg, d)
    ensures OnDisk(Action(st, arg, d).state)
  {
  }

  lemma DropKeepsOnDisk(st: State, p: Path)
    requires OnDisk(st)
    requires p in st.files
    ensures OnDisk(Drop(st, p))
  {
  }

  /** A dropped path that cannot be read leaves a saved document pointing at a
      file that does not exist, because `currentFile` is assigned before the
      read fails. */
  lemma FailedDropLeavesStalePath(st: State, p: Path)
    requires st.session.isSave && p != "" && p !in st.files
    ensures !OnDisk(Drop(st, p))
    ensures Drop(st, p).session.title == st.session.title
  {
  }

  /** Normalizing line ends never changes the count: CR and LF both separate
      words. */
  lemma {:induction false} EditorValueKeepsCount(s: Text, inLatinRun: bool)
    ensures WordsCounter.CountFrom(EditorValue(s), inLatinRun) == WordsCounter.CountFrom(s, inLatinRun)
    decreases |s|
  {
    if s != [] {
      if s[0] == CarriageReturn {
        if |s| > 1 && s[1] == LineFeed {
          EditorValueKeepsCount(s[2..], false);
          WordsCounter.SeparatorRun(s, 2, inLatinRun);
          assert ([LineFeed] + EditorValue(s[2..]))[1..] == EditorValue(s[2..]);
        } else {
          EditorValueKeepsCount(s[1..], false);
          assert ([LineFeed] + EditorValue(s[1..]))[1..] == EditorValue(s[1..]);
        }
      } else {
        EditorValueKeepsCount(s[1..], WordsCounter.IsLatinWordUnit(s[0]));
        assert ([s[0]] + EditorValue(s[1..]))[1..] == EditorValue(s[1..]);
      }
    }
  }

  /** The editor's value is the two-pass newline normalization of what was
      put in: CR LF pairs become LF, then remaining CRs become LF. */
  lemma {:induction false} EditorValueNormalizesNewlines(s: Text)
    ensures EditorValue(s) == ReplaceCr(ReplaceCrLf(s))
    decreases |s|
  {
    if s != [] {
      if |s| > 1 && s[0] == CarriageReturn && s[1] == LineFeed {
        EditorValueNormalizesNewlines(s[2..]);
        assert ([LineFeed] + ReplaceCrLf(s[2..]))[1..] == ReplaceCrLf(s[2..]);
      } else {
        EditorValueNormalizesNewlines(s[1..]);
        assert ([s[0]] + ReplaceCrLf(s[1..]))[1..] == ReplaceCrLf(s[1..]);
      }
    }
  }

  /** A file with a CR in it, loaded and saved again without an edit, is
      rewritten with LF line ends: the save writes what the editor reports. */
  lemma LoadThenSaveRewritesLineEnds(st: State, p: Path, d: Dialogs)
    requires p != "" && p in st.files
    requires exists i :: 0 <= i < |st.files[p]| && st.files[p][i] == CarriageReturn
    ensures
      var saved := Action(Load(st, p).state, "save", d).state;
      && saved.files[p] == EditorValue(st.files[p])
      && saved.files[p] != st.files[p]
  {
  }

  /** Edits applied one after another. */
  function InputAll(st: State, texts: seq<Text>): State
    decreases |texts|
  {
    if texts == [] then st else InputAll(OnInput(st, texts[0]), texts[1..])
  }

  /** Between two saves the marker is appended once, by the first edit, however
      many edits follow. */
  lemma {:induction false} InputMarksTitleOnce(st: State, texts: seq<Text>)
    requires st.session.isSave
    requires |texts| > 0
    ensures InputAll(st, texts).session.title == st.session.title + DirtyMarker
    ensures !InputAll(st, texts).session.isSave
    ensures InputAll(st, texts).session.text == EditorValue(texts[|texts| - 1])
    ensures InputAll(st, texts).files == st.files
  {
    var first := OnInput(st, texts[0]);
    DirtyInputsKeepTitle(first, texts[1..]);
    if |texts| > 1 {
      assert texts[1..][|texts[1..]| - 1] == texts[|texts| - 1];
    }
  }

  lemma {:induction false} DirtyInputsKeepTitle(st: State, texts: seq<Text>)
    requires !st.session.isSave
    ensures InputAll(st, texts).session.title == st.session.title
    ensures !InputAll(st, texts).session.isSave
    ensures texts == [] ==> InputAll(st, texts).session.text == st.session.text
    ensures texts != [] ==> InputAll(st, texts).session.text == EditorValue(texts[|texts| - 1])
    ensures InputAll(st, texts).files == st.files
    decreases |texts|
  {
    if texts != [] {
      DirtyInputsKeepTitle(OnInput(st, texts[0]), texts[1..]);
      if |texts| > 1 {
        assert texts[1..][|texts[1..]| - 1] == texts[|texts| - 1];
      }
    }
  }

  /** What is saved can be loaded back: after a save that found a path, loading
      that path, from any later state with the same files, yields the saved
      text as a saved document; a text the editor reports, without CR, comes
      back unchanged. */
  lemma SaveThenLoad(st: State, savePath: Option<Path>, later: State)
    requires Truthy(SaveCurrentDoc(st, savePath).session.currentFile)
    requires later.files == SaveCurrentDoc(st, savePath).files
    ensures
      var p := SaveCurrentDoc(st, savePath).session.currentFile.value;
      && !Load(later, p).threw
      && Load(later, p).state.session.text == EditorValue(st.session.text)
      && (NoCarriageReturn(st.session.text) ==> Load(later, p).state.session.text == st.session.text)
      && Load(later, p).state.session.isSave
      && Load(later, p).state.session.title == SaveCurrentDoc(st, savePath).session.title
  {
  }

  /** `save` on a document with a path writes there without a dialog, marks
      the document saved and titles it with the path. */
  lemma SaveWritesInPlace(st: State, d: Dialogs)
    requires Truthy(st.session.currentFile)
    ensures
      var p := st.session.currentFile.value;
      Action(st, "save", d) ==
        Reaction(State(st.session.(isSave := true, title := TitlePrefix + p), st.files[p := st.session.text]), false)
  {
  }

  /** `save` on a document without a path, and `save-as` on any document,
      write to the path the save dialog returns and make it current. */
  lemma SaveAsWritesToChosenPath(st: State, arg: string, d: Dialogs)
    requires arg == "save-as" || (arg == "save" && !Truthy(st.session.currentFile))
    requires Truthy(d.savePath)
    ensures
      var p := d.savePath.value;
      Action(st, arg, d) ==
        Reaction(State(st.session.(currentFile := d.savePath, isSave := true, title := TitlePrefix + p),
                       st.files[p := st.session.text]), false)
  {
  }

  /** A Yes in the prompt of `new`, `open` or `exit` on an unsaved document
      saves it before the action goes on: to its path when it has one,
      otherwise to the path the save dialog returns. */
  lemma GuardYesSaves(st: State, arg: string, d: Dialogs)
    requires arg == "new" || arg == "open" || arg == "exit"
    requires !st.session.isSave && d.confirm == 0
    ensures Action(st, arg, d).state.files == SaveCurrentDoc(st, d.savePath).files
    ensures Truthy(st.session.currentFile) ==>
      Action(st, arg, d).state.files == st.files[st.session.currentFile.value := st.session.text]
    ensures !Truthy(st.session.currentFile) && Truthy(d.savePath) ==>
      Action(st, arg, d).state.files == st.files[d.savePath.value := st.session.text]
  {
  }

  /** `open` loads the file the dialog returns whatever the prompt answered:
      the text, path, title and count are those of the file as it is after
      the prompt. */
  lemma OpenLoadsChosenFile(st: State, d: Dialogs, p: Path)
    requires d.openPath == Some(p) && p in st.files
    ensures
      var r := Action(st, "open", d).state;
      && r.session.text == EditorValue(r.files[p])
      && r.session.currentFile == Some(p)
      && r.session.isSave
      && r.session.title == TitlePrefix + p
      && r.session.count == WordsCounter.CountRule(r.session.text)
  {
  }

  /** `save-as` forgets the path before asking for a new one, so cancelling
      its dialog leaves the document without a path, and nothing else
      changes, not even a title that still names the old file. */
  lemma SaveAsCancelledLosesPath(st: State, d: Dialogs)
    requires !Truthy(d.savePath)
    ensures Action(st, "save-as", d) == Reaction(State(st.session.(currentFile := None), st.files), false)
  {
  }

  /** `new` ends in the untitled document whatever the prompt answered; a
      Cancel only forbids the next quit, and the unsaved text is lost unless
      the answer was Yes. */
  lemma NewEndsUntitled(st: State, d: Dialogs)
    ensures
      var r := Action(st, "new", d).state.session;
      && r.currentFile == None && r.text == [] && r.isSave && r.count == 0
      && r.title == UntitledTitle
      && r.isQuit == (st.session.isQuit && (st.session.isSave || d.confirm == 0 || d.confirm == 1))
    ensures d.confirm != 0 ==> Action(st, "new", d).state.files == st.files
    ensures !Action(st, "new", d).sentExit
  {
  }

  /** `open` loads the chosen file even when the prompt answered Cancel, and
      the Cancel forbids the next quit. */
  lemma OpenIgnoresCancel(st: State, d: Dialogs, p: Path)
    requires !st.session.isSave && d.confirm != 0 && d.confirm != 1
    requires d.openPath == Some(p) && p in st.files
    ensures Action(st, "open", d).state.session.text == EditorValue(st.files[p])
    ensures Action(st, "open", d).state.session.currentFile == Some(p)
    ensures !Action(st, "open", d).state.session.isQuit
    ensures Action(st, "open", d).state.files == st.files
  {
  }

  /** A cancelled open dialog keeps the text, path and title (a Yes in the
      prompt before it may still have saved). */
  lemma OpenCancelledKeepsDocument(st: State, d: Dialogs)
    requires d.openPath.None?
    ensures Action(st, "open", d).state.session.text == st.session.text
    ensures Action(st, "open", d).state.session.count == WordsCounter.CountRule(st.session.text)
    ensures Action(st, "open", d).state == AskSaveNeed(st, d).(session := Action(st, "open", d).state.session)
    ensures Action(st, "open", d).state.session == Recount(AskSaveNeed(st, d).session)
  {
  }

  /** `exit` sends the quit message exactly when quitting is still allowed
      after the prompt, and always re-allows quitting afterwards. */
  lemma ExitSendsIffAllowed(st: State, d: Dialogs)
    ensures Action(st, "exit", d).sentExit <==>
      st.session.isQuit && (st.session.isSave || d.confirm == 0 || d.confirm == 1)
    ensures Action(st, "exit", d).state.session.isQuit
    ensures Action(st, "exit", d).state.session.text == st.session.text
  {
  }

  /** Apart from the prompt's save on Yes, `exit` changes nothing but
      re-allowing the quit. */
  lemma ExitOtherwiseOnlyResetsQuit(st: State, d: Dialogs)
    ensures st.session.isSave || d.confirm != 0 ==>
      Action(st, "exit", d).state == st.(session := st.session.(isQuit := true))
    ensures !st.session.isSave && d.confirm == 0 ==>
      var g := SaveCurrentDoc(st, d.savePath);
      Action(st, "exit", d).state == g.(session := g.session.(isQuit := true))
  {
  }

  /** A Cancel in the prompt of `new` is remembered: the next `exit` finds a
      saved document, asks nothing, and still does not quit; the one after it
      does. */
  lemma CancelledNewSwallowsNextExit(st: State, d1: Dialogs, d2: Dialogs, d3: Dialogs)
    requires !st.session.isSave && d1.confirm != 0 && d1.confirm != 1
    ensures !Action(Action(st, "new", d1).state, "exit", d2).sentExit
    ensures Action(Action(Action(st, "new", d1).state, "exit", d2).state, "exit", d3).sentExit
  {
  }

  /** A Cancel in the prompt of `open` whose document stays unsaved, because
      the open dialog is cancelled or the read fails, is remembered too: the
      next `exit` asks again, and even a Yes there does not quit. */
  lemma CancelledOpenSwallowsNextExit(st: State, d1: Dialogs, d2: Dialogs)
    requires !st.session.isSave && d1.confirm != 0 && d1.confirm != 1
    requires d1.openPath.None? || d1.openPath.value !in st.files
    ensures !Action(st, "open", d1).state.session.isSave
    ensures !Action(Action(st, "open", d1).state, "exit", d2).sentExit
  {
  }

  /** Dropping a file is `open` without the prompt: on a saved document the
      two agree, and on an unsaved one a drop discards the edits without
      writing anything or touching `isQuit`. */
  lemma DropIsUnguardedOpen(st: State, d: Dialogs, p: Path)
    ensures st.session.isSave ==> Action(st, "open", d.(openPath := Some(p))).state == Drop(st, p)
    ensures Drop(st, p).files == st.files
    ensures Drop(st, p).session.isQuit == st.session.isQuit
  {
  }

  /** Strings the switch does not name are ignored. */
  lemma UnknownActionIgnored(st: State, arg: string, d: Dialogs)
    requires arg !in {"new", "open", "save", "save-as", "exit"}
    ensures Action(st, arg, d) == Reaction(st, false)
  {
  }
}

=== FILE: words_count.dfy ===
/** The editor's word counter (`wordsCount` in renderer.js): four global
    regular-expression replacements followed by taking the length of what is
    left, related to a direct unit-by-unit counting rule. */
module WordsCounter {
  import opened CodeUnits

  // ---------------------------------------------------------------------------
  // The regular-expression pipeline, one function per `replace`
  // ---------------------------------------------------------------------------

  /** `str.replace(/(\r\n+|\s+|　+)/g, "龘")`. The alternatives are tried in
      order at each position: a carriage return followed by line feeds is one
      match (so "\r\n\t" yields two sentinels), otherwise a greedy whitespace
      run is one match. The third alternative is never reached, because U+3000
      is itself whitespace. Units that start no match are copied. */
  function MarkWhitespace(s: Text): Text
    decreases |s|
  {
    if s == [] then []
    else if s[0] == CarriageReturn && |s| > 1 && s[1] == LineFeed then
      [Sentinel] + MarkWhitespace(s[1 + RunLength(s[1..], IsLineFeed)..])
    else if IsWhitespace(s[0]) then
      [Sentinel] + MarkWhitespace(s[RunLength(s, IsWhitespace)..])
    else
      [s[0]] + MarkWhitespace(s[1..])
  }

  /** `str.replace(/[\x00-\xff]/g, "m")`. */
  function MaskLatin1(s: Text): Text
    decreases |s|
  {
    if s == [] then []
    else [if IsLatin1(s[0]) then LetterM else s[0]] + MaskLatin1(s[1..])
  }

  /** `str.replace(/m+/g, "*")`. */
  function CollapseLetterM(s: Text): Text
    decreases |s|
  {
    if s == [] then []
    else if s[0] == LetterM then [Asterisk] + CollapseLetterM(s[RunLength(s, IsLetterM)..])
    else [s[0]] + CollapseLetterM(s[1..])
  }

  /** `str.replace(/龘+/g, "")`. */
  function EraseSentinels(s: Text): Text
    decreases |s|
  {
    if s == [] then []
    else if s[0] == Sentinel then EraseSentinels(s[RunLength(s, IsSentinel)..])
    else [s[0]] + EraseSentinels(s[1..])
  }

  /** The number `wordsCount` writes into `txtNum`: the length, in code units,
      of the text after the four replacements. */
  function WordsCount(s: Text): nat
  {
    |EraseSentinels(CollapseLetterM(MaskLatin1(MarkWhitespace(s))))|
  }

  // ---------------------------------------------------------------------------
  // The counting rule the pipeline implements
  // ---------------------------------------------------------------------------

  /** A unit that is part of a Latin word: in U+0000..U+00FF and not whitespace. */
  predicate IsLatinWordUnit(c: CodeUnit) {
    IsLatin1(c) && !IsWhitespace(c)
  }

  /** A unit that counts nothing and ends a Latin word: whitespace, or a
      literal '龘', which the last replacement erases like a sentinel. */
  predicate IsSeparator(c: CodeUnit) {
    IsWhitespace(c) || c == Sentinel
  }

  /** The counting rule, one unit at a time: a Latin word unit counts 1 when it
      starts a run of Latin word units, a separator counts 0, and every other
      unit counts 1. `inLatinRun` says whether the previous unit was a Latin
      word unit. */
  function CountFrom(s: Text, inLatinRun: bool): nat
    decreases |s|
  {
    if s == [] then 0
    else if IsSeparator(s[0]) then CountFrom(s[1..], false)
    else if IsLatinWordUnit(s[0]) then (if inLatinRun then 0 else 1) + CountFrom(s[1..], true)
    else 1 + CountFrom(s[1..], false)
  }

  function CountRule(s: Text): nat
  {
    CountFrom(s, false)
  }

  predicate NoWhitespace(s: Text) {
    forall i :: 0 <= i < |s| ==> !IsWhitespace(s[i])
  }

  predicate OnlySeparators(s: Text) {
    forall i :: 0 <= i < |s| ==> IsSeparator(s[i])
  }

  /** Every unit in U+0000..U+00FF is the letter 'm'. */
  predicate Latin1IsLetterM(s: Text) {
    forall i :: 0 <= i < |s| ==> IsLatin1(s[i]) ==> s[i] == LetterM
  }

  /** No two adjacent units are both Latin word units. */
  predicate NoAdjacentLatin(s: Text)
    decreases |s|
  {
    |s| < 2 || (!(IsLatinWordUnit(s[0]) && IsLatinWordUnit(s[1])) && NoAdjacentLatin(s[1..]))
  }

  // ---------------------------------------------------------------------------
  // Runs
  // ---------------------------------------------------------------------------

  /** A leading run of separators counts nothing and ends any Latin word. */
  lemma {:induction false} SeparatorRun(s: Text, k: nat, inLatinRun: bool)
    requires 1 <= k <= |s|
    requires forall i :: 0 <= i < k ==> IsSeparator(s[i])
    ensures CountFrom(s, inLatinRun) == CountFrom(s[k..], false)
    decreases k
  {
    if k > 1 {
      SeparatorRun(s[1..], k - 1, false);
      assert s[1..][k - 1..] == s[k..];
    }
  }

  /** A leading run of Latin word units counts as one word, or as none when it
      continues a word. */
  lemma {:induction false} LatinRun(s: Text, k: nat, inLatinRun: bool)
    requires 1 <= k <= |s|
    requires forall i :: 0 <= i < k ==> IsLatinWordUnit(s[i])
    ensures CountFrom(s, inLatinRun) == (if inLatinRun then 0 else 1) + CountFrom(s[k..], true)
    decreases k
  {
    if k > 1 {
      LatinRun(s[1..], k - 1, true);
      assert s[1..][k - 1..] == s[k..];
    }
  }

  // ---------------------------------------------------------------------------
  // Each replacement keeps the count
  // ---------------------------------------------------------------------------

  lemma {:induction false} MarkWhitespaceKeepsCount(s: Text, inLatinRun: bool)
    ensures CountFrom(MarkWhitespace(s), inLatinRun) == CountFrom(s, inLatinRun)
    ensures NoWhitespace(MarkWhitespace(s))
    decreases |s|
  {
    if s == [] {
    } else if s[0] == CarriageReturn && |s| > 1 && s[1] == LineFeed {
      var k := 1 + RunLength(s[1..], IsLineFeed);
      assert forall i :: 1 <= i < k ==> s[i] == s[1..][i - 1];
      SeparatorRun(s, k, inLatinRun);
      MarkWhitespaceKeepsCount(s[k..], false);
      assert ([Sentinel] + MarkWhitespace(s[k..]))[1..] == MarkWhitespace(s[k..]);
    } else if IsWhitespace(s[0]) {
      var k := RunLength(s, IsWhitespace);
      SeparatorRun(s, k, inLatinRun);
      MarkWhitespaceKeepsCount(s[k..], false);
      assert ([Sentinel] + MarkWhitespace(s[k..]))[1..] == MarkWhitespace(s[k..]);
    } else {
      MarkWhitespaceKeepsCount(s[1..], false);
      MarkWhitespaceKeepsCount(s[1..], true);
      assert ([s[0]] + MarkWhitespace(s[1..]))[1..] == MarkWhitespace(s[1..]);
    }
  }

  lemma {:induction false} MaskLatin1KeepsCount(s: Text, inLatinRun: bool)
    requires NoWhitespace(s)
    ensures CountFrom(MaskLatin1(s), inLatinRun) == CountFrom(s, inLatinRun)
    ensures NoWhitespace(MaskLatin1(s))
    ensures Latin1IsLetterM(MaskLatin1(s))
    decreases |s|
  {
    if s != [] {
      MaskLatin1KeepsCount(s[1..], false);
      MaskLatin1KeepsCount(s[1..], true);
      var c := if IsLatin1(s[0]) then LetterM else s[0];
      assert MaskLatin1(s) == [c] + MaskLatin1(s[1..]);
      assert MaskLatin1(s)[1..] == MaskLatin1(s[1..]);
    }
  }

  lemma {:induction false} CollapseKeepsCount(s: Text, inLatinRun: bool)
    requires NoWhitespace(s)
    ensures CountFrom(CollapseLetterM(s), inLatinRun) == CountFrom(s, inLatinRun)
    ensures NoWhitespace(CollapseLetterM(s))
    decreases |s|
  {
    if s == [] {
    } else if s[0] == LetterM {
      var k := RunLength(s, IsLetterM);
      LatinRun(s, k, inLatinRun);
      CollapseKeepsCount(s[k..], true);
      assert ([Asterisk] + CollapseLetterM(s[k..]))[1..] == CollapseLetterM(s[k..]);
    } else {
      CollapseKeepsCount(s[1..], false);
      CollapseKeepsCount(s[1..], true);
      assert ([s[0]] + CollapseLetterM(s[1..]))[1..] == CollapseLetterM(s[1..]);
    }
  }

  /** Once every Latin-1 unit is 'm', collapsing leaves no two Latin word units
      side by side, and a result that starts with a Latin word unit comes from
      an input that starts with one. */
  lemma {:induction false} CollapseSeparatesLatin(s: Text)
    requires Latin1IsLetterM(s)
    ensures NoAdjacentLatin(CollapseLetterM(s))
    ensures CollapseLetterM(s) != [] && IsLatinWordUnit(CollapseLetterM(s)[0]) ==> s[0] == LetterM
    decreases |s|
  {
    if s == [] {
    } else if s[0] == LetterM {
      var k := RunLength(s, IsLetterM);
      CollapseSeparatesLatin(s[k..]);
    } else {
      CollapseSeparatesLatin(s[1..]);
    }
  }

  lemma {:induction false} NoAdjacentLatinSuffix(s: Text, k: nat)
    requires k <= |s|
    requires NoAdjacentLatin(s)
    ensures NoAdjacentLatin(s[k..])
    decreases k
  {
    if k > 0 {
      NoAdjacentLatinSuffix(s[1..], k - 1);
      assert s[1..][k - 1..] == s[k..];
    }
  }

  /** On a text with no whitespace and no adjacent Latin word units, erasing
      the sentinels leaves exactly one unit per counted unit. */
  lemma {:induction false} EraseLeavesCount(s: Text, inLatinRun: bool)
    requires NoWhitespace(s)
    requires NoAdjacentLatin(s)
    requires inLatinRun ==> s == [] || !IsLatinWordUnit(s[0])
    ensures |EraseSentinels(s)| == CountFrom(s, inLatinRun)
    decreases |s|
  {
    if s == [] {
    } else if s[0] == Sentinel {
      var k := RunLength(s, IsSentinel);
      SeparatorRun(s, k, inLatinRun);
      NoAdjacentLatinSuffix(s, k);
      EraseLeavesCount(s[k..], false);
    } else if IsLatinWordUnit(s[0]) {
      NoAdjacentLatinSuffix(s, 1);
      EraseLeavesCount(s[1..], true);
    } else {
      NoAdjacentLatinSuffix(s, 1);
      EraseLeavesCount(s[1..], false);
    }
  }

  // ---------------------------------------------------------------------------
  // What the counter computes
  // ---------------------------------------------------------------------------

  /** The four replacements count exactly by the rule: each maximal run of
      non-whitespace U+0000..U+00FF units is one word, every other
      non-whitespace unit is one word, and whitespace and '龘' count nothing. */
  lemma WordsCountMatchesRule(s: Text)
    ensures WordsCount(s) == CountRule(s)
  {
    var t := MarkWhitespace(s);
    MarkWhitespaceKeepsCount(s, false);
    var u := MaskLatin1(t);
    MaskLatin1KeepsCount(t, false);
    var v := CollapseLetterM(u);
    CollapseKeepsCount(u, false);
    CollapseSeparatesLatin(u);
    EraseLeavesCount(v, false);
  }

  lemma {:induction false} CountFromAtMostLength(s: Text, inLatinRun: bool)
    ensures CountFrom(s, inLatinRun) <= |s|
    decreases |s|
  {
    if s != [] {
      CountFromAtMostLength(s[1..], false);
      CountFromAtMostLength(s[1..], true);
    }
  }

  lemma {:induction false} CountRuleZeroIff(s: Text)
    ensures CountRule(s) == 0 <==> OnlySeparators(s)
    decreases |s|
  {
    if s != [] {
      CountRuleZeroIff(s[1..]);
      assert OnlySeparators(s) <==> IsSeparator(s[0]) && OnlySeparators(s[1..]) by {
        if IsSeparator(s[0]) && OnlySeparators(s[1..]) {
          forall i | 0 <= i < |s| ensures IsSeparator(s[i]) {
            if i > 0 { assert s[i] == s[1..][i - 1]; }
          }
        }
      }
    }
  }

  /** The count is never more than the text's length in code units, and it is
      zero exactly when the text holds nothing but whitespace and '龘' (in
      particular when it is empty). */
  lemma WordsCountBounds(s: Text)
    ensures WordsCount(s) <= |s|
    ensures WordsCount(s) == 0 <==> OnlySeparators(s)
  {
    WordsCountMatchesRule(s);
    CountFromAtMostLength(s, false);
    CountRuleZeroIff(s);
  }

  /** "hello world" counts 2: two Latin words around a space. */
  lemma CountsTwoLatinWords(s: Text)
    requires s == [0x68, 0x65, 0x6C, 0x6C, 0x6F, 0x20, 0x77, 0x6F, 0x72, 0x6C, 0x64]
    ensures WordsCount(s) == 2
  {
    WordsCountMatchesRule(s);
    LatinRun(s, 5, false);
    assert s[5..][1..] == s[6..];
    LatinRun(s[6..], 5, false);
    assert s[6..][5..] == [];
  }

  /** "hi你好" counts 3: one Latin word and two ideographs. */
  lemma CountsIdeographsOneEach(s: Text)
    requires s == [0x68, 0x69, 0x4F60, 0x597D]
    ensures WordsCount(s) == 3
  {
    WordsCountMatchesRule(s);
    LatinRun(s, 2, false);
    assert s[2..][1..] == [0x597D];
    assert CountFrom(s[2..][1..], false) == 1 + CountFrom([], false);
  }

  /** A literal '龘' counts nothing. */
  lemma CountsLiteralSentinelZero(s: Text)
    requires s == [Sentinel]
    ensures WordsCount(s) == 0
  {
    WordsCountMatchesRule(s);
    SeparatorRun(s, 1, false);
    assert s[1..] == [];
  }

  /** A CR LF LF line break still separates two words. */
  lemma CountsAcrossLineBreak(s: Text)
    requires s == [0x61, CarriageReturn, LineFeed, LineFeed, 0x62]
    ensures WordsCount(s) == 2
  {
    WordsCountMatchesRule(s);
    LatinRun(s, 1, false);
    SeparatorRun(s[1..], 3, true);
    assert s[1..][3..] == [0x62];
    assert s[1..][3..][1..] == [];
  }
}
